=== FILE: README.md ===
# Fernweh electromagnetic field simulator — Dafny model

Fernweh is a set of components for an electromagnetic field viewer:

- an electric and a magnetic vector field on a 3-D grid;
- a GPU compute pass that steps the fields;
- a simulator that runs that pass four times per frame and builds test scenarios;
- an arrow renderer and a wireframe box for drawing the fields;
- a keyboard-driven fly camera.

In this version of the repository the components are not wired together.
`main` declares only the `math_types` module and draws a demo triangle.
This project models the components on their own, as their source
defines them. It covers the parts that are logic rather than graphics
plumbing:

- **Grid addressing** (`Grid`). A cell (x, y, z) of an [nx, ny, nz] grid
  is stored at `x + y*nx + z*(nx*ny)`. The arrow shader inverts this with
  one division by the layer size and one by nx. Both are modelled on
  natural numbers. `Address` is proved a bijection from the grid onto
  [0, nx*ny*nz), and the shader's decomposition is proved its inverse.
- **Vector fields** (`Fields`). A size plus a flat buffer of padded
  4-component vectors, checked at construction. Also the
  electric/magnetic pair.
- **The field updater** (`FieldUpdater`). It runs one compute-shader
  invocation per cell. Each invocation scales its own electric vector by
  (1 + dt) and zeroes the padding. The invocations are run in an arbitrary
  order. The model proves that every order visiting each cell once yields
  the same per-cell map, and that the dispatch is such an order.
- **The simulator** (`Simulator`). Four updater calls per frame, so the
  electric xyz scales by (1 + dt)^4. It also covers the three scenario
  initialisers: the travelling wave, the static point charge and the test
  field. These fill the grid with a triple loop.
- **The arrow renderer's vertex shader** (`ArrowRenderer`). Two vertices
  per cell, the cell decoded from `id / 2`, and the tip selected by the
  low bit.
- **Keyboard state** (`Keyboard`). A map from key to state: a press
  inserts the key, a release removes it.
- **Camera controller** (`Camera`).
  - The arrow keys turn azimuth and elevation at 2 rad/s.
  - Azimuth is wrapped into [-pi, pi] by the two `while` loops.
  - Elevation is clamped to [-pi/2, pi/2].
  - W/A/S/D walk at 16 units/s along the camera axes, normalised so that
    walking diagonally is no faster.
  - Space and C climb and descend at 0.8 * 16 units/s.
- **Field border** (`Border`). The eight unit-cube corners and the 24-entry
  index list. It is proved to draw exactly the 12 cube edges, three at each
  corner, scaled per axis by the grid size.

`f32` values are modelled as reals. `sin`, `exp`, `sqrt`, the constant pi
and the camera's quaternion-derived axes are parameters. A contract that
needs a fact about them says so: `IsSqrt(sqrt)` states that `sqrt` returns
the non-negative root, and `pi > 0`. The source's `assert_eq!` panics
become `Failure` results.

The per-cell update is modelled as it is written. The compute shader
scales each electric vector by (1 + dt) and sets w to 0. It reads no
neighbouring cell and does not touch the magnetic field. It computes no
curl and does no leapfrog or Maxwell-style update, although the names
`ElectromagneticFieldUpdater` and `electromagnetic_field` suggest one.

## Model

| member | source | states |
|---|---|---|
| Grid.Address | src/electromagnetic_field_updater.rs:46 | the flat address of an in-grid cell is below nx*ny*nz, so every buffer write is in bounds |
| Grid.Decode | src/vector_field_visualizer.rs:65-70 | the shader's decomposition of a cell index always gives x < nx and y < ny; with `EncodeDecode` and `DecodeEncode` it is the inverse of `Address` on [0, nx*ny*nz) |
| Grid.AddressInjective | src/fields_simulator.rs:100 | two in-grid cells with the same address are the same cell |
| Grid.AddressSurjective | src/vector_field_visualizer.rs:65-70 | every index below nx*ny*nz is the address of the in-grid cell the shader decodes it to, and a non-empty grid has nx, ny > 0 |
| Grid.EncodeDecode | src/vector_field_visualizer.rs:66-70 | encoding the decoded cell of any index gives the index back; the decoded cell is in the grid exactly when the index is below nx*ny*nz |
| Grid.DecodeEncode | src/vector_field_visualizer.rs:66-70 | decoding the address of an in-grid cell gives the cell back |
| Grid.AddressFitsU32 | src/electromagnetic_field_updater.rs:46 | when nx*ny*nz fits in u32, the address and each of its partial products fit too, so the u32 shader arithmetic does not wrap |
| Fields.NewWithData | src/vector_field.rs:18-32 | construction succeeds exactly when the buffer length is nx*ny*nz and otherwise fails with a length mismatch; a constructed field holds the data verbatim |
| Fields.New | src/vector_field.rs:12-16 | the zero field has nx*ny*nz entries, all (0, 0, 0, 0), and the given size |
| Fields.GetSize | src/vector_field.rs:34-37 | the reported size of a valid field accounts for exactly its stored entries: nx*ny*nz equals the buffer length |
| Fields.WithBuffer | src/vector_field.rs:44-47 | writing through the mutable buffer keeps the size and validity and stores the new contents |
| Fields.GetSizeAfterNew | src/vector_field.rs:34-37 | `get_size` returns the size given to either constructor |
| FieldUpdater.Invoke | src/electromagnetic_field_updater.rs:46-49 | one invocation rewrites the entry at its own address and no other entry |
| FieldUpdater.RunInOrder | src/electromagnetic_field_updater.rs:28-35 | running invocations one after another keeps the buffer length; `RunInOrderEffect` and `OrderIndependent` state which entries change |
| FieldUpdater.DispatchOrder | src/electromagnetic_field_updater.rs:28-35 | the dispatch lists nx*ny*nz invocations; invocation k is an in-grid cell whose address is k |
| FieldUpdater.ScaleEntry | src/electromagnetic_field_updater.rs:47-49 | the shader's per-entry work always leaves w = 0 and, for dt = 0, keeps xyz; `OrderIndependent` shows it is what every entry undergoes exactly once |
| FieldUpdater.DispatchEachCellOnce | src/electromagnetic_field_updater.rs:28-35 | the dispatch visits every in-grid cell exactly once |
| FieldUpdater.RunInOrderEffect | src/electromagnetic_field_updater.rs:46-49 | running distinct invocations in sequence scales exactly the addresses they touch, each once, and leaves all other entries alone |
| FieldUpdater.OrderIndependent | src/electromagnetic_field_updater.rs:44-50 | every execution order that visits each cell once gives the same buffer: each entry scaled by (1 + dt) with w = 0 |
| FieldUpdater.Update | src/electromagnetic_field_updater.rs:16-30 | fails exactly when the electric and magnetic sizes differ; otherwise each electric xyz is scaled by (1 + dt), every w is 0, the sizes are kept and the magnetic field is unchanged |
| FieldUpdater.ZeroStepKeepsVectors | src/electromagnetic_field_updater.rs:48 | with dt = 0 the update succeeds on equal sizes and leaves every electric xyz unchanged |
| Simulator.Update | src/fields_simulator.rs:33-40 | four updater calls with the same dt: fails exactly on a size mismatch; otherwise the electric xyz is scaled by (1 + dt)^4, w is 0, the magnetic field is unchanged, and dt = 0 changes no xyz |
| Simulator.Fill | src/fields_simulator.rs:82-105 | the z/y/x triple loop leaves a buffer of nx*ny*nz entries in which every in-grid cell's address holds that cell's value |
| Simulator.FillCoversBuffer | src/fields_simulator.rs:131-155 | every index of the filled buffer holds the value of the cell it decodes to, so every entry is written by the loop |
| Simulator.WaveAt | src/fields_simulator.rs:79-98 | the wave's electric vector has zero y, z and w, and its magnetic vector is unit_z x E = (0, E.x, 0, 0) |
| Simulator.CreateTestWaveField | src/fields_simulator.rs:71-111 | both fields are 72x72x192 and valid; each cell holds the wave's vectors at its address; every entry of the pair has the (E.x, 0, 0, 0) / (0, E.x, 0, 0) shape |
| Simulator.ChargeAt | src/fields_simulator.rs:139-152 | w is 0; the vector is zero exactly at the charge; elsewhere it is parallel to the offset and points away from the charge (positive dot product), and its squared length times inv_scale^2 * len(offset)^4 is 1 |
| Simulator.InverseSquare | src/fields_simulator.rs:149 | for a non-zero offset the field vector is non-zero, parallel to the offset and pointing the same way (positive dot product), with magnitude 1 / (inv_scale * len(offset)^2) |
| Simulator.InverseSquareLaw | src/fields_simulator.rs:149 | the denominator inv_scale * len(vec)^2 * len(vec) is positive and the quotient obeys the inverse-square magnitude law |
| Simulator.CenterAtOrigin | src/fields_simulator.rs:124-126 | the charge center has zero length only for a grid with no cells, so the division by a zero squared length is never used |
| Simulator.CreateTestStaticChargeField | src/fields_simulator.rs:122-158 | the field is valid with the given size and every w is 0; each in-grid cell holds `ChargeAt` of the grid center with inv_scale = 128 / len(center)^2, and that squared length is positive whenever the grid has a cell; an entry is zero exactly at the cell that sits at the grid center |
| Simulator.CreateTestField | src/fields_simulator.rs:113-120 | both fields are 48x32x24, the magnetic field is all zero, the electric field is the point-charge field: each in-grid cell holds `ChargeAt` of the grid center with inv_scale = 128 / len(center)^2; cell (24, 16, 12) is the only cell whose electric vector is zero |
| ArrowRenderer.VertexCount | src/vector_field_visualizer.rs:36 | the draw issues an even number of vertices, two per cell, and the count fits in u32 |
| ArrowRenderer.TipFactor | src/vector_field_visualizer.rs:74 | the tip factor is 0 or 1 |
| ArrowRenderer.VerticesInBounds | src/vector_field_visualizer.rs:65-75 | every vertex of the draw reads a buffer entry in bounds and decodes to an in-grid cell stored at that index |
| ArrowRenderer.VertexPosition | src/vector_field_visualizer.rs:65-79 | every vertex with an in-range cell index decodes to an in-grid cell, and an even vertex sits at that cell's center whatever the field holds |
| ArrowRenderer.ArrowOfCell | src/vector_field_visualizer.rs:65-74 | vertices 2a and 2a + 1 of a cell at address a decode to that cell, with tip factor 0 and 1, and no other vertex does |
| ArrowRenderer.BaseAtCenter | src/vector_field_visualizer.rs:72-79 | the base vertex is at the cell center whatever the field holds; the tip is the center moved by the clamped vector |
| ArrowRenderer.CenterInsideBox | src/vector_field_visualizer.rs:72 | every arrow base lies strictly inside the box [0, nx] x [0, ny] x [0, nz] |
| Keyboard.New | src/keyboard_state.rs:9-12 | a fresh state is valid and reports no key as pressed |
| Keyboard.IsPressed | src/keyboard_state.rs:14-17 | a key missing from the map, or stored as released, is not pressed; with `PressedIffStored` a valid state reports a key pressed exactly when it is stored |
| Keyboard.ProcessEvent | src/keyboard_state.rs:19-32 | after a press the key is pressed, after a release it is not, no other key changes, and validity is kept |
| Keyboard.PressedIffStored | src/keyboard_state.rs:14-17 | in a valid state, a key is pressed exactly when it is stored |
| Keyboard.ProcessEventIdempotent | src/keyboard_state.rs:19-32 | applying the same event twice equals applying it once |
| Keyboard.ReplayLastEventWins | src/keyboard_state.rs:19-32 | after a sequence of events a key is pressed exactly when its last event was a press, or, with no event, when it was pressed before |
| Keyboard.ReplayValid | src/keyboard_state.rs:23-30 | any event sequence from the fresh state stores only pressed keys |
| Camera.New | src/camera_controller.rs:14-21 | the camera starts with zero azimuth, elevation and position |
| Camera.Turn | src/camera_controller.rs:31-47 | holding both keys of a pair leaves the angle unchanged; the plus key alone adds 2 dt and the minus key alone subtracts it |
| Camera.WrapAzimuth | src/camera_controller.rs:49-56 | the loops end with the azimuth in [-pi, pi], changed by a whole number of turns of 2 pi, and unchanged if it was already in range |
| Camera.ClampElevation | src/camera_controller.rs:58-65 | the elevation ends in [-pi/2, pi/2]: unchanged inside, saturated at the nearer bound outside |
| Camera.MoveVector | src/camera_controller.rs:76-91 | opposite keys cancel; W alone gives the forward axis and A alone the right axis |
| Camera.MoveVectorSum | src/camera_controller.rs:76-91 | for every key combination the move vector is (W - S) times the forward axis plus (A - D) times the right axis, with each key counted 1 when held and 0 otherwise; so S alone walks backwards and D alone walks along minus the `right` axis. The source's `right_vector` is the rotated +y axis, which lies to the camera's left, so A strafes left and D strafes right |
| Camera.WalkStep | src/camera_controller.rs:93-97 | a zero move vector does not move the camera; otherwise the step is parallel to it and has length 16 dt, and for dt > 0 it points along the move vector, not against it (positive dot product), so W walks forward |
| Camera.Climb | src/camera_controller.rs:99-106 | Space alone raises z by 0.8 * 16 * dt, C alone lowers it by as much, and both or neither cancel |
| Camera.Update | src/camera_controller.rs:23-107 | after an update the azimuth is in [-pi, pi] and unchanged if the turned azimuth was already in range; the elevation is the clamped turned elevation; the position moves by the walk step along the new orientation's axes plus the climb |
| Camera.IdleUpdate | src/camera_controller.rs:23-107 | with no key held and angles in range, an update leaves the camera unchanged |
| Border.CornersByBits | src/field_border_visualizer.rs:14-39 | corner i of the vertex table is (bit 2, bit 1, bit 0) of i |
| Border.IndicesInRange | src/field_border_visualizer.rs:41 | the index list has 24 entries, all below the 8 corners |
| Border.Segment | src/field_border_visualizer.rs:41 | each segment joins two distinct corners |
| Border.SegmentsAreDistinctEdges | src/field_border_visualizer.rs:14-41 | each segment joins two corners differing in exactly one coordinate, and no two segments are the same |
| Border.EdgeSegment | src/field_border_visualizer.rs:41 | every cube edge is drawn by some segment |
| Border.SegmentsAreCubeEdges | src/field_border_visualizer.rs:14-41 | the set of segments is exactly the set of cube edges |
| Border.EveryCornerUsed | src/field_border_visualizer.rs:41 | every corner occurs in the index list |
| Border.ThreeSegmentsPerCorner | src/field_border_visualizer.rs:41 | exactly three segments end at each corner |
| Border.ScaledCorner | src/field_border_visualizer.rs:57 | a scaled corner has each coordinate either 0 or the grid size along that axis |
| Border.BoxSpansGrid | src/field_border_visualizer.rs:57 | the scaled box runs from the origin to (nx, ny, nz) |

## Left out

- OpenGL plumbing is not modelled: buffer creation, shader compilation, uniforms, `execute`, `draw`, depth parameters, and `get_buffer`/`get_buffer_mut` as GPU handles. The buffer contents are modelled as a sequence, and writing through `get_buffer_mut` is modelled as `WithBuffer`.
- `src/main.rs` is not part of this model. It opens a window and draws a demo triangle, and it calls none of the modelled components. Nothing in the repository calls `FieldsSimulator::update`/`draw`, `CameraController::update` or `KeyboardState::process_event`, and `create_test_field` is unused. The model treats each component as its own entry point, and keyboard events reach `ProcessEvent` directly.
- `src/math_types.rs` and `src/ogl_common.rs` are type aliases and a matrix wrapper with no logic of their own. `src/electromagnetic_field.rs` is the plain record `EmField`.
- IEEE `f32` rounding is not modelled; all arithmetic is on reals. In particular the wrap loops of `WrapAzimuth` terminate on reals. In `f32` they could stall for a huge azimuth, where subtracting 2 pi no longer changes the value.
- `sin`, `exp` and `sqrt` are parameters. Pi is also a parameter, assumed only to be positive, because the `f32` constant is not exact.
- The wave field's numeric values are not proved. Only their component structure is.
- `Simulator.WaveAt`: states the component shape (E along x, B = unit_z x E) but no numeric value of the envelope or the sine, because `sin` and `exp` are uninterpreted.
- The camera's quaternion rotation and `get_view_matrix` are not modelled. The forward and right axes for the new angles are the parameter `axes`.
- The arrow length clamp and colour in the vertex shader (lines 76-82) are not modelled. The clamp is the parameter `clamp` of `VertexPosition`.
- The `u32` size product is assumed not to overflow: `FitsU32` is a precondition, and for the arrow draw so is 2*nx*ny*nz < 2^32. The model does not describe what the wrapped `u32` product would do.
- `ArrowRenderer.TipFactor`: models `gl_VertexID & 1` as `id % 2`. The two agree on the non-negative vertex ids a draw produces.
- `Camera.Update`: states the azimuth only through range and identity, not the exact multiple of 2 pi. That multiple is stated by `WrapAzimuth`, whose turn count is a ghost value.
- The GPU's parallel execution is modelled as sequential execution in a given order. `OrderIndependent` shows the order does not matter, because no invocation reads another's cell.
- The simulator's `draw` (clear colours, base colours) is rendering only.
- The updater's dispatch is modelled by `DispatchOrder`: invocation k is the cell with address k. The pair of lemmas `DispatchEachCellOnce` and `OrderIndependent` carries the real content, namely that each cell is processed exactly once and the order is irrelevant.

=== FILE: camera_controller.dfy ===
/** The free-flying camera: azimuth and elevation angles turned by the arrow
    keys, azimuth wrapped into [-pi, pi] and elevation clamped to
    [-pi/2, pi/2], and a position moved by W/A/S/D along the camera's
    forward and right axes and by Space/C vertically.

    The forward and right axes come from a quaternion built from the two
    angles; that rotation is a parameter (`axes`), as are `sqrt` and the
    `f32` constant pi.
 */
module Camera {
  import opened VecMath
  import opened Keyboard

  datatype CameraController = CameraController(azimuth: real, elevation: real, pos: Vec3)

  /** Radians per second turned while an arrow key is held. */
  const ANGLE_SPEED: real := 2.0
  /** Distance per second walked. */
  const SPEED: real := 16.0
  /** Distance per second climbed or descended. */
  const JUMP_SPEED: real := 0.8 * SPEED

  /** The camera's forward and right unit axes for given angles. */
  datatype Axes = Axes(forward: Vec3, right: Vec3)

  /** `CameraController::new`: looking along the x axis from the origin. */
  function New(): (c: CameraController)
    ensures c.azimuth == 0.0 && c.elevation == 0.0 && c.pos == Zero3
  {
    CameraController(0.0, 0.0, Zero3)
  }

  /** One angle turned by a pair of keys: `plus` adds and `minus` subtracts
      ANGLE_SPEED * dt, so holding both leaves the angle as it was. */
  function Turn(angle: real, dt: real, plus: bool, minus: bool): (r: real)
    ensures plus == minus ==> r == angle
    ensures plus && !minus ==> r == angle + ANGLE_SPEED * dt
    ensures !plus && minus ==> r == angle - ANGLE_SPEED * dt
  {
    var a := if plus then angle + ANGLE_SPEED * dt else angle;
    if minus then a - ANGLE_SPEED * dt else a
  }

  /** Subtracting the period `d` lowers x / d by exactly one. */
  lemma DivShift(x: real, d: real)
    requires d > 0.0
    ensures (x - d) / d == x / d - 1.0
  {
    var p := (x - d) / d;
    var q := x / d - 1.0;
    assert p * d == x - d;
    assert q * d == x - d;
    if p > q {
      assert false;
    } else if p < q {
      assert false;
    }
  }

  /** Whole periods `d` in `x`: the termination measure of the wrap loops. */
  function Periods(x: real, d: real): int
    requires d > 0.0
  {
    (x / d).Floor
  }

  lemma PeriodsStep(x: real, d: real)
    requires d > 0.0 && x > 0.0
    ensures Periods(x, d) >= 0 && Periods(x - d, d) == Periods(x, d) - 1
  {
    DivShift(x, d);
    var q := x / d;
    assert q * d == x;
    if q <= 0.0 {
      assert false;
    }
  }

  lemma Distribute(p: real, t: int)
    ensures p * (t + 1) as real == p * t as real + p
  {
  }

  /** The two `while` loops that bring the azimuth into [-pi, pi] by whole
      turns of 2 pi; `turns` counts the turns taken off (negative when
      added). */
  method WrapAzimuth(a: real, pi: real) returns (r: real, ghost turns: int)
    requires pi > 0.0
    ensures -pi <= r <= pi
    ensures r == a - 2.0 * pi * turns as real
    ensures -pi <= a <= pi ==> r == a
  {
    var twoPi := 2.0 * pi;
    r := a;
    turns := 0;
    while r > pi
      invariant r == a - twoPi * turns as real
      invariant a <= pi ==> turns == 0
      decreases Periods(r - pi, twoPi)
    {
      PeriodsStep(r - pi, twoPi);
      assert r - twoPi - pi == (r - pi) - twoPi;
      Distribute(twoPi, turns);
      r := r - twoPi;
      turns := turns + 1;
    }
    while r < -pi
      invariant r <= pi
      invariant r == a - twoPi * turns as real
      invariant -pi <= a <= pi ==> turns == 0
      decreases Periods(-pi - r, twoPi)
    {
      PeriodsStep(-pi - r, twoPi);
      assert -pi - (r + twoPi) == (-pi - r) - twoPi;
      Distribute(twoPi, turns - 1);
      r := r + twoPi;
      turns := turns - 1;
    }
  }

  /** The elevation is saturated at +-pi/2. */
  function ClampElevation(e: real, pi: real): (r: real)
    requires pi > 0.0
    ensures -pi / 2.0 <= r <= pi / 2.0
    ensures -pi / 2.0 <= e <= pi / 2.0 ==> r == e
    ensures e > pi / 2.0 ==> r == pi / 2.0
    ensures e < -pi / 2.0 ==> r == -pi / 2.0
  {
    var halfPi := pi / 2.0;
    var a := if e > halfPi then halfPi else e;
    if a < -halfPi then -halfPi else a
  }

  /** The unnormalised walking direction: W and S add and subtract the
      forward axis, A and D add and subtract the right axis. */
  function MoveVector(keys: KeyboardState, axes: Axes): (m: Vec3)
    ensures IsPressed(keys, W) == IsPressed(keys, S) && IsPressed(keys, A) == IsPressed(keys, D) ==> m == Zero3
    ensures IsPressed(keys, W) && !IsPressed(keys, S) && IsPressed(keys, A) == IsPressed(keys, D) ==> m == axes.forward
    ensures IsPressed(keys, A) && !IsPressed(keys, D) && IsPressed(keys, W) == IsPressed(keys, S) ==> m == axes.right
  {
    var m0 := Zero3;
    var m1 := if IsPressed(keys, W) then Add(m0, axes.forward) else m0;
    var m2 := if IsPressed(keys, S) then Sub(m1, axes.forward) else m1;
    var m3 := if IsPressed(keys, D) then Sub(m2, axes.right) else m2;
    if IsPressed(keys, A) then Add(m3, axes.right) else m3
  }

  /** 1 while a key is held, 0 otherwise. */
  function Held(keys: KeyboardState, k: Key): real
  {
    if IsPressed(keys, k) then 1.0 else 0.0
  }

  /** The move vector for every key combination: W minus S along the
      forward axis plus A minus D along the right axis. */
  lemma MoveVectorSum(keys: KeyboardState, axes: Axes)
    ensures MoveVector(keys, axes)
      == Add(Scale(axes.forward, Held(keys, W) - Held(keys, S)), Scale(axes.right, Held(keys, A) - Held(keys, D)))
  {
  }

  /** The walking step: the move vector normalised and scaled to
      SPEED * dt, or nothing when the move vector has zero length.  Walking
      diagonally is therefore no faster than walking straight. */
  function WalkStep(m: Vec3, dt: real, sqrt: real -> real): (d: Vec3)
    requires IsSqrt(sqrt)
    ensures m == Zero3 ==> d == Zero3
    ensures m != Zero3 ==> LengthSq(d) == (dt * SPEED) * (dt * SPEED) && Cross(d, m) == Zero3
    ensures m != Zero3 && dt > 0.0 ==> Dot(d, m) > 0.0
  {
    NonZeroLength(m, sqrt);
    var len := sqrt(LengthSq(m));
    if len > 0.0 then
      var k := dt * SPEED / len;
      ScaleLengthSq(m, k);
      NormalisedLength(m, dt * SPEED, len);
      ForwardStep(m, dt, len);
      Scale(m, k)
    else
      Zero3
  }

  /** The magnitude of a vector is positive exactly when the vector is not
      zero. */
  lemma NonZeroLength(m: Vec3, sqrt: real -> real)
    requires IsSqrt(sqrt)
    ensures sqrt(LengthSq(m)) > 0.0 <==> m != Zero3
  {
    LengthSqZero(m);
    SqrtZero(sqrt);
    if m != Zero3 {
      SqrtPositive(sqrt, LengthSq(m));
    }
  }

  lemma NormalisedLength(m: Vec3, s: real, len: real)
    requires len > 0.0 && len * len == LengthSq(m)
    ensures LengthSq(Scale(m, s / len)) == s * s
    ensures Cross(Scale(m, s / len), m) == Zero3
  {
    var k := s / len;
    ScaleLengthSq(m, k);
    assert k * len == s;
    assert k * k * (len * len) == (k * len) * (k * len);
  }

  /** For a positive time step the normalised step points along the move
      vector, not against it. */
  lemma ForwardStep(m: Vec3, dt: real, len: real)
    requires len > 0.0
    ensures m != Zero3 && dt > 0.0 ==> Dot(Scale(m, dt * SPEED / len), m) > 0.0
  {
    if m != Zero3 && dt > 0.0 {
      ScaleSameDirection(m, dt * SPEED / len);
    }
  }

  /** The vertical step: Space climbs and C descends by JUMP_SPEED * dt. */
  function Climb(keys: KeyboardState, dt: real): (h: real)
    ensures IsPressed(keys, Space) == IsPressed(keys, C) ==> h == 0.0
    ensures IsPressed(keys, Space) && !IsPressed(keys, C) ==> h == dt * JUMP_SPEED
    ensures !IsPressed(keys, Space) && IsPressed(keys, C) ==> h == -(dt * JUMP_SPEED)
  {
    var h0 := if IsPressed(keys, Space) then dt * JUMP_SPEED else 0.0;
    if IsPressed(keys, C) then h0 - dt * JUMP_SPEED else h0
  }

  /** `CameraController::update`: turn, wrap and clamp the angles, then walk
      along the axes of the new orientation and climb. */
  method Update(cam: CameraController, dt: real, keys: KeyboardState, pi: real,
                axes: (real, real) -> Axes, sqrt: real -> real)
    returns (r: CameraController)
    requires pi > 0.0 && IsSqrt(sqrt)
    ensures -pi <= r.azimuth <= pi
    ensures -pi / 2.0 <= r.elevation <= pi / 2.0
    ensures var a := Turn(cam.azimuth, dt, IsPressed(keys, Left), IsPressed(keys, Right));
      -pi <= a <= pi ==> r.azimuth == a
    ensures r.elevation == ClampElevation(Turn(cam.elevation, dt, IsPressed(keys, Up), IsPressed(keys, Down)), pi)
    ensures r.pos == Add(Add(cam.pos, WalkStep(MoveVector(keys, axes(r.azimuth, r.elevation)), dt, sqrt)),
                         Vec3(0.0, 0.0, Climb(keys, dt)))
  {
    var azimuth := Turn(cam.azimuth, dt, IsPressed(keys, Left), IsPressed(keys, Right));
    var elevation := Turn(cam.elevation, dt, IsPressed(keys, Up), IsPressed(keys, Down));
    ghost var turns;
    azimuth, turns := WrapAzimuth(azimuth, pi);
    elevation := ClampElevation(elevation, pi);
    var move := MoveVector(keys, axes(azimuth, elevation));
    var pos := Add(cam.pos, WalkStep(move, dt, sqrt));
    pos := Vec3(pos.x, pos.y, pos.z + Climb(keys, dt));
    r := CameraController(azimuth, elevation, pos);
  }

  /** With no key held and both angles already in range, an update leaves
      the camera exactly as it was. */
  method IdleUpdate(cam: CameraController, dt: real, pi: real, axes: (real, real) -> Axes, sqrt: real -> real)
    returns (r: CameraController)
    requires pi > 0.0 && IsSqrt(sqrt)
    requires -pi <= cam.azimuth <= pi && -pi / 2.0 <= cam.elevation <= pi / 2.0
    ensures r == cam
  {
    r := Update(cam, dt, Keyboard.New(), pi, axes, sqrt);
    assert r.elevation == cam.elevation;
    assert r.pos == cam.pos;
    assert -pi <= r.azimuth <= pi;
  }
}

=== FILE: field_border_visualizer.dfy ===
/** The wireframe box drawn around the field: the eight corners of the unit
    cube, an index list of 24 entries drawn as 12 line segments, and a
    per-axis scale by the field size.
 */
module Border {
  import opened VecMath
  import opened Grid

  /** The vertex buffer: corner i has coordinates (bit 2, bit 1, bit 0) of i. */
  const CORNERS: seq<Vec3> := [
    Vec3(0.0, 0.0, 0.0), Vec3(0.0, 0.0, 1.0), Vec3(0.0, 1.0, 0.0), Vec3(0.0, 1.0, 1.0),
    Vec3(1.0, 0.0, 0.0), Vec3(1.0, 0.0, 1.0), Vec3(1.0, 1.0, 0.0), Vec3(1.0, 1.0, 1.0)
  ]

  /** The `u16` index buffer, read as a list of line segments. */
  const INDICES: seq<nat> := [0, 1, 0, 2, 1, 3, 2, 3, 4, 5, 4, 6, 5, 7, 6, 7, 0, 4, 2, 6, 3, 7, 1, 5]

  /** Bit `b` of a corner number, as a coordinate. */
  function Bit(i: nat, b: nat): real
  {
    if (if b == 0 then i else if b == 1 then i / 2 else i / 4) % 2 == 1 then 1.0 else 0.0
  }

  /** The corner table lists every vertex of the unit cube, by binary
      numbering. */
  lemma CornersByBits()
    ensures |CORNERS| == 8
    ensures forall i :: 0 <= i < 8 ==> CORNERS[i] == Vec3(Bit(i, 2), Bit(i, 1), Bit(i, 0))
  {
  }

  /** Two corners form an edge of the cube when their numbers differ in
      exactly one bit. */
  predicate IsEdge(i: nat, j: nat)
  {
    var dx := Bit(i, 2) != Bit(j, 2);
    var dy := Bit(i, 1) != Bit(j, 1);
    var dz := Bit(i, 0) != Bit(j, 0);
    (dx && !dy && !dz) || (!dx && dy && !dz) || (!dx && !dy && dz)
  }

  /** The end points of segment k, smaller index first. */
  function Segment(k: nat): (e: (nat, nat))
    requires k < 12
    ensures e.0 < e.1 < 8
  {
    var a := INDICES[2 * k];
    var b := INDICES[2 * k + 1];
    if a < b then (a, b) else (b, a)
  }

  function Segments(): set<(nat, nat)>
  {
    set k | 0 <= k < 12 :: Segment(k)
  }

  function CubeEdges(): set<(nat, nat)>
  {
    set i: nat, j: nat | i < j < 8 && IsEdge(i, j) :: (i, j)
  }

  /** The index buffer holds 24 in-range vertex numbers, i.e. 12 segments. */
  lemma IndicesInRange()
    ensures |INDICES| == 24 && |INDICES| % 2 == 0
    ensures forall k :: 0 <= k < |INDICES| ==> INDICES[k] < |CORNERS|
  {
  }

  /** The twelve segments, in index-buffer order. */
  lemma SegmentTable()
    ensures Segment(0) == (0, 1) && Segment(1) == (0, 2) && Segment(2) == (1, 3) && Segment(3) == (2, 3)
    ensures Segment(4) == (4, 5) && Segment(5) == (4, 6) && Segment(6) == (5, 7) && Segment(7) == (6, 7)
    ensures Segment(8) == (0, 4) && Segment(9) == (2, 6) && Segment(10) == (3, 7) && Segment(11) == (1, 5)
  {
  }

  /** Every segment drawn is an edge of the cube, and no segment is drawn
      twice. */
  lemma SegmentsAreDistinctEdges()
    ensures forall k :: 0 <= k < 12 ==> IsEdge(Segment(k).0, Segment(k).1)
    ensures forall k, l :: 0 <= k < l < 12 ==> Segment(k) != Segment(l)
  {
    SegmentTable();
    forall k | 0 <= k < 12
      ensures IsEdge(Segment(k).0, Segment(k).1)
      ensures EdgeSegment(Segment(k).0, Segment(k).1) == k
    {
      // Split into the twelve concrete segments; each case is then read
      // off the table above.
      if k == 0 {} else if k == 1 {} else if k == 2 {} else if k == 3 {} else if k == 4 {} else if k == 5 {}
      else if k == 6 {} else if k == 7 {} else if k == 8 {} else if k == 9 {} else if k == 10 {} else {}
    }
  }

  /** The segments are exactly the twelve edges of the cube. */
  lemma SegmentsAreCubeEdges()
    ensures Segments() == CubeEdges()
  {
    forall e | e in CubeEdges()
      ensures e in Segments()
    {
      var i, j := e.0, e.1;
      assert i < j < 8 && IsEdge(i, j);
      var k := EdgeSegment(i, j);
      assert Segment(k) == e;
    }
    forall e | e in Segments()
      ensures e in CubeEdges()
    {
      var k :| 0 <= k < 12 && Segment(k) == e;
      SegmentsAreDistinctEdges();
    }
  }

  /** The segment that draws a given cube edge. */
  function EdgeSegment(i: nat, j: nat): (k: nat)
    requires i < j < 8 && IsEdge(i, j)
    ensures k < 12 && Segment(k) == (i, j)
  {
    if i == 0 && j == 1 then 0
    else if i == 0 && j == 2 then 1
    else if i == 1 && j == 3 then 2
    else if i == 2 && j == 3 then 3
    else if i == 4 && j == 5 then 4
    else if i == 4 && j == 6 then 5
    else if i == 5 && j == 7 then 6
    else if i == 6 && j == 7 then 7
    else if i == 0 && j == 4 then 8
    else if i == 2 && j == 6 then 9
    else if i == 3 && j == 7 then 10
    else 11
  }

  /** Every corner of the vertex buffer is used by some segment. */
  lemma EveryCornerUsed()
    ensures forall v :: 0 <= v < 8 ==> v in INDICES
  {
    assert INDICES[0] == 0 && INDICES[1] == 1 && INDICES[3] == 2 && INDICES[5] == 3;
    assert INDICES[8] == 4 && INDICES[9] == 5 && INDICES[11] == 6 && INDICES[13] == 7;
  }

  predicate Touches(k: nat, v: nat)
    requires k < 12
  {
    Segment(k).0 == v || Segment(k).1 == v
  }

  /** The segments that end at corner `v`. */
  function Touching(v: nat): set<nat>
  {
    set k | 0 <= k < 12 && Touches(k, v)
  }

  /** Each corner ends exactly three segments, as each cube vertex has
      three edges. */
  lemma ThreeSegmentsPerCorner(v: nat)
    requires v < 8
    ensures |Touching(v)| == 3
  {
    SegmentTable();
    var t := Touching(v);
    var e: set<nat> :=
      if v == 0 then {0, 1, 8} else if v == 1 then {0, 2, 11} else if v == 2 then {1, 3, 9}
      else if v == 3 then {2, 3, 10} else if v == 4 then {4, 5, 8} else if v == 5 then {4, 6, 11}
      else if v == 6 then {5, 7, 9} else {6, 7, 10};
    forall k | k in t
      ensures k in e
    {
      // Split into the twelve concrete segments; each case is then read
      // off the table above.
      if k == 0 {} else if k == 1 {} else if k == 2 {} else if k == 3 {} else if k == 4 {} else if k == 5 {}
      else if k == 6 {} else if k == 7 {} else if k == 8 {} else if k == 9 {} else if k == 10 {} else {}
    }
    assert t == e;
  }

  /** A corner after the model matrix's non-uniform scale by the field size. */
  function ScaledCorner(s: Size, i: nat): (p: Vec3)
    requires i < 8
    ensures p.x == 0.0 || p.x == s.nx as real
    ensures p.y == 0.0 || p.y == s.ny as real
    ensures p.z == 0.0 || p.z == s.nz as real
  {
    CornersByBits();
    var c := CORNERS[i];
    Vec3(s.nx as real * c.x, s.ny as real * c.y, s.nz as real * c.z)
  }

  /** The scaled box spans from the origin to (nx, ny, nz): the cells'
      outer faces. */
  lemma BoxSpansGrid(s: Size)
    ensures ScaledCorner(s, 0) == Zero3
    ensures ScaledCorner(s, 7) == Vec3(s.nx as real, s.ny as real, s.nz as real)
  {
  }
}

=== FILE: field_updater.dfy ===
/** The electromagnetic field updater as written: one compute-shader
    invocation per grid cell, each scaling the electric vector stored at its
    own cell by (1 + dt) and zeroing the padding component.  Only the
    electric buffer is bound to the shader, so the magnetic field is never
    touched.

    The GPU runs the invocations in an unspecified order.  The model runs
    them one after another in a given order and proves that every order
    visiting each cell once gives the same buffer: the per-cell map.
 */
module FieldUpdater {
  import opened VecMath
  import opened Grid
  import opened Fields

  /** The shader's work on one stored vector. */
  function ScaleEntry(v: Vec4, dt: real): (r: Vec4)
    ensures r.w == 0.0
    ensures dt == 0.0 ==> Xyz(r) == Xyz(v)
  {
    Extend(Scale(Xyz(v), 1.0 + dt), 0.0)
  }

  /** One shader invocation for cell `c`: it reads and writes the entry at
      the cell's own address and nothing else. */
  function Invoke(s: Size, buf: seq<Vec4>, c: Cell, dt: real): (r: seq<Vec4>)
    requires |buf| == CellCount(s) && InGrid(s, c)
    ensures |r| == |buf|
    ensures r[Address(s, c)] == ScaleEntry(buf[Address(s, c)], dt)
    ensures forall i :: 0 <= i < |buf| && i != Address(s, c) ==> r[i] == buf[i]
  {
    buf[Address(s, c) := ScaleEntry(buf[Address(s, c)], dt)]
  }

  predicate AllInGrid(s: Size, order: seq<Cell>)
  {
    forall k :: 0 <= k < |order| ==> InGrid(s, order[k])
  }

  /** Invocations executed one after another, in the order listed. */
  function RunInOrder(s: Size, buf: seq<Vec4>, order: seq<Cell>, dt: real): (r: seq<Vec4>)
    requires |buf| == CellCount(s) && AllInGrid(s, order)
    ensures |r| == |buf|
    decreases |order|
  {
    if |order| == 0 then buf
    else
      var last := order[|order| - 1];
      Invoke(s, RunInOrder(s, buf, order[..|order| - 1], dt), last, dt)
  }

  /** The set of addresses an invocation order touches. */
  function Touched(s: Size, order: seq<Cell>): set<nat>
  {
    set k | 0 <= k < |order| :: Address(s, order[k])
  }

  predicate NoRepeats(order: seq<Cell>)
  {
    forall j, k :: 0 <= j < k < |order| ==> order[j] != order[k]
  }

  /** An order that lists every cell of the grid exactly once. */
  ghost predicate EachCellOnce(s: Size, order: seq<Cell>)
  {
    && AllInGrid(s, order)
    && NoRepeats(order)
    && (forall c :: InGrid(s, c) ==> c in order)
  }

  /** The compute dispatch: an nx*ny*nz grid of work groups of local size
      1x1x1, listed by linear invocation index. */
  function DispatchOrder(s: Size): (order: seq<Cell>)
    ensures |order| == CellCount(s)
    ensures forall k :: 0 <= k < |order| ==> InGrid(s, order[k]) && Address(s, order[k]) == k
  {
    DecodeAll(s);
    seq(CellCount(s), k requires 0 <= k < CellCount(s) => Decode(s, k))
  }

  lemma DecodeAll(s: Size)
    ensures CellCount(s) > 0 ==> s.nx > 0 && s.ny > 0
    ensures forall k :: 0 <= k < CellCount(s) ==>
      InGrid(s, Decode(s, k)) && Address(s, Decode(s, k)) == k
  {
    if CellCount(s) > 0 {
      NonEmptyDims(s);
      forall k | 0 <= k < CellCount(s)
        ensures InGrid(s, Decode(s, k)) && Address(s, Decode(s, k)) == k
      {
        AddressSurjective(s, k);
      }
    }
  }

  /** The dispatch runs exactly one invocation per cell, and the cell of
      invocation k is the one stored at address k. */
  lemma DispatchEachCellOnce(s: Size)
    ensures EachCellOnce(s, DispatchOrder(s))
    ensures forall c :: InGrid(s, c) ==> DispatchOrder(s)[Address(s, c)] == c
  {
    var order := DispatchOrder(s);
    forall c | InGrid(s, c)
      ensures order[Address(s, c)] == c
    {
      var k := Address(s, c);
      AddressInjective(s, order[k], c);
    }
  }

  /** Running distinct invocations in sequence scales exactly the touched
      entries, each once, and leaves the others as they were. */
  lemma {:induction false} RunInOrderEffect(s: Size, buf: seq<Vec4>, order: seq<Cell>, dt: real)
    requires |buf| == CellCount(s) && AllInGrid(s, order) && NoRepeats(order)
    ensures forall i :: 0 <= i < |buf| ==>
      RunInOrder(s, buf, order, dt)[i] == (if i in Touched(s, order) then ScaleEntry(buf[i], dt) else buf[i])
    decreases |order|
  {
    if |order| > 0 {
      var prefix := order[..|order| - 1];
      var last := order[|order| - 1];
      RunInOrderEffect(s, buf, prefix, dt);
      var a := Address(s, last);
      assert Touched(s, order) == Touched(s, prefix) + {a} by {
        forall i | i in Touched(s, order) ensures i in Touched(s, prefix) + {a} {
          var k :| 0 <= k < |order| && i == Address(s, order[k]);
          if k < |order| - 1 {
            assert order[k] == prefix[k];
          }
        }
        forall i | i in Touched(s, prefix) ensures i in Touched(s, order) {
          var k :| 0 <= k < |prefix| && i == Address(s, prefix[k]);
          assert prefix[k] == order[k];
        }
      }
      assert a !in Touched(s, prefix) by {
        if a in Touched(s, prefix) {
          var k :| 0 <= k < |prefix| && a == Address(s, prefix[k]);
          assert prefix[k] == order[k];
          AddressInjective(s, prefix[k], last);
          assert false;
        }
      }
    }
  }

  /** The result does not depend on the execution order: any order that
      visits each cell once yields the per-cell map of `ScaleEntry`. */
  lemma OrderIndependent(s: Size, buf: seq<Vec4>, order: seq<Cell>, dt: real)
    requires |buf| == CellCount(s) && EachCellOnce(s, order)
    ensures RunInOrder(s, buf, order, dt) == seq(|buf|, i requires 0 <= i < |buf| => ScaleEntry(buf[i], dt))
  {
    RunInOrderEffect(s, buf, order, dt);
    forall i | 0 <= i < |buf|
      ensures i in Touched(s, order)
    {
      AddressSurjective(s, i);
      var c := Decode(s, i);
      var k :| 0 <= k < |order| && order[k] == c;
    }
  }

  /** `ElectromagneticFieldUpdater::update`: fails before any work when the
      two sizes differ; otherwise every electric vector is scaled by
      (1 + dt) with its padding zeroed, and the magnetic field and both sizes
      are unchanged. */
  function Update(f: EmField, dt: real): (r: Result<EmField>)
    requires ValidEm(f)
    ensures r.Failure? <==> GetSize(f.electric) != GetSize(f.magnetic)
    ensures r.Failure? ==> r.error == SizeMismatch
    ensures r.Success? ==> ValidEm(r.value) && r.value.magnetic == f.magnetic
    ensures r.Success? ==> GetSize(r.value.electric) == GetSize(f.electric)
    ensures r.Success? ==> forall i :: 0 <= i < |f.electric.data| ==>
      && Xyz(r.value.electric.data[i]) == Scale(Xyz(f.electric.data[i]), 1.0 + dt)
      && r.value.electric.data[i].w == 0.0
  {
    if GetSize(f.electric) != GetSize(f.magnetic) then Failure(SizeMismatch)
    else
      var s := GetSize(f.electric);
      var order := DispatchOrder(s);
      DispatchEachCellOnce(s);
      OrderIndependent(s, f.electric.data, order, dt);
      var scaled := RunInOrder(s, f.electric.data, order, dt);
      Success(EmField(WithBuffer(f.electric, scaled), f.magnetic))
  }

  /** A zero time step leaves every electric vector's xyz as it was. */
  lemma ZeroStepKeepsVectors(f: EmField)
    requires ValidEm(f) && GetSize(f.electric) == GetSize(f.magnetic)
    ensures Update(f, 0.0).Success?
    ensures forall i :: 0 <= i < |f.electric.data| ==>
      Xyz(Update(f, 0.0).value.electric.data[i]) == Xyz(f.electric.data[i])
  {
    var r := Update(f, 0.0).value;
    forall i | 0 <= i < |f.electric.data|
      ensures Xyz(r.electric.data[i]) == Xyz(f.electric.data[i])
    {
      assert Scale(Xyz(f.electric.data[i]), 1.0 + 0.0) == Xyz(f.electric.data[i]);
    }
  }
}

=== FILE: fields_simulator.dfy ===
/** The simulator's per-frame update and its scenario initialisers.

    The initialisers evaluate a closed form at every cell with a triple loop
    (z outermost, x innermost) and store the result at the cell's address.
    `sin`, `exp` and `sqrt` and the constant pi are parameters: the model
    states nothing about their values beyond what each contract names.
 */
module Simulator {
  import opened VecMath
  import opened Grid
  import opened Fields
  import FieldUpdater

  /** Number of updater calls per frame. */
  const SUB_STEPS: nat := 4

  function Pow(b: real, n: nat): real
  {
    if n == 0 then 1.0 else Pow(b, n - 1) * b
  }

  /** `FieldsSimulator::update`: the updater runs `SUB_STEPS` times with
      the frame's time step passed through unchanged.  The first call fails
      when the sizes differ; otherwise the electric xyz ends up scaled by
      (1 + dt)^4 with padding zero, and the magnetic field is untouched. */
  method Update(f: EmField, dt: real) returns (r: Result<EmField>)
    requires ValidEm(f)
    ensures r.Failure? <==> GetSize(f.electric) != GetSize(f.magnetic)
    ensures r.Success? ==> ValidEm(r.value) && r.value.magnetic == f.magnetic
    ensures r.Success? ==> GetSize(r.value.electric) == GetSize(f.electric)
    ensures r.Success? ==> forall i :: 0 <= i < |f.electric.data| ==>
      && Xyz(r.value.electric.data[i]) == Scale(Xyz(f.electric.data[i]), Pow(1.0 + dt, SUB_STEPS))
      && r.value.electric.data[i].w == 0.0
    ensures r.Success? && dt == 0.0 ==> forall i :: 0 <= i < |f.electric.data| ==>
      Xyz(r.value.electric.data[i]) == Xyz(f.electric.data[i])
  {
    var cur := f;
    for k := 0 to SUB_STEPS
      invariant ValidEm(cur) && cur.magnetic == f.magnetic
      invariant GetSize(cur.electric) == GetSize(f.electric)
      invariant |cur.electric.data| == |f.electric.data|
      invariant k > 0 ==> GetSize(f.electric) == GetSize(f.magnetic)
      invariant forall i :: 0 <= i < |f.electric.data| ==>
        Xyz(cur.electric.data[i]) == Scale(Xyz(f.electric.data[i]), Pow(1.0 + dt, k))
      invariant k > 0 ==> forall i :: 0 <= i < |f.electric.data| ==> cur.electric.data[i].w == 0.0
    {
      var step := FieldUpdater.Update(cur, dt);
      if step.Failure? {
        return Failure(step.error);
      }
      forall i | 0 <= i < |f.electric.data|
        ensures Xyz(step.value.electric.data[i]) == Scale(Xyz(f.electric.data[i]), Pow(1.0 + dt, k + 1))
      {
        assert Xyz(step.value.electric.data[i]) == Scale(Xyz(cur.electric.data[i]), 1.0 + dt);
        ScalePowSucc(Xyz(f.electric.data[i]), 1.0 + dt, k);
      }
      cur := step.value;
    }
    if dt == 0.0 {
      PowOne(SUB_STEPS);
    }
    r := Success(cur);
  }

  /** One more sub-step multiplies the accumulated factor by (1 + dt). */
  lemma ScalePowSucc(v: Vec3, b: real, n: nat)
    ensures Scale(Scale(v, Pow(b, n)), b) == Scale(v, Pow(b, n + 1))
  {
  }

  lemma {:induction false} PowOne(n: nat)
    ensures Pow(1.0, n) == 1.0
  {
    if n > 0 {
      PowOne(n - 1);
    }
  }

  /** Fill a fresh buffer by visiting the grid with the source's triple loop
      and storing `value(c)` at `Address(s, c)`. */
  method Fill<T>(s: Size, init: T, value: Cell -> T) returns (data: seq<T>)
    ensures |data| == CellCount(s)
    ensures forall c :: InGrid(s, c) ==> data[Address(s, c)] == value(c)
  {
    data := seq(CellCount(s), _ => init);
    for z := 0 to s.nz
      invariant |data| == CellCount(s)
      invariant forall c :: InGrid(s, c) && c.z < z ==> data[Address(s, c)] == value(c)
    {
      for y := 0 to s.ny
        invariant |data| == CellCount(s)
        invariant forall c :: InGrid(s, c) && (c.z < z || (c.z == z && c.y < y)) ==>
          data[Address(s, c)] == value(c)
      {
        for x := 0 to s.nx
          invariant |data| == CellCount(s)
          invariant forall c :: InGrid(s, c) && (c.z < z || (c.z == z && (c.y < y || (c.y == y && c.x < x)))) ==>
            data[Address(s, c)] == value(c)
        {
          var cell := Cell(x, y, z);
          var a := Address(s, cell);
          forall c | InGrid(s, c) && Address(s, c) == a
            ensures c == cell
          {
            AddressInjective(s, c, cell);
          }
          data := data[a := value(cell)];
        }
      }
    }
  }

  /** Every index below the cell count is written by `Fill`: it holds the
      value of the cell it decodes to. */
  lemma FillCoversBuffer<T>(s: Size, data: seq<T>, value: Cell -> T, i: nat)
    requires |data| == CellCount(s) && i < |data|
    requires forall c :: InGrid(s, c) ==> data[Address(s, c)] == value(c)
    ensures s.nx > 0 && s.ny > 0 && data[i] == value(Decode(s, i))
  {
    AddressSurjective(s, i);
  }

  // ---------------------------------------------------------------------
  // Travelling wave scenario

  const WAVE_SIZE: Size := Size(72, 72, 192)

  /** The electric and magnetic entries of one cell. */
  datatype CellPair = CellPair(electric: Vec4, magnetic: Vec4)

  /** The wave packet at cell `c`: a Gaussian envelope around
      (nx/2, ny/2, nz/4), with the x and y offsets scaled by 0.7, times a sine of
      period 12 cells along z; the electric vector points along x and the
      magnetic one is unit_z x E. */
  function WaveAt(s: Size, pi: real, sin: real -> real, exp: real -> real, c: Cell): (p: CellPair)
    ensures p.electric.y == 0.0 && p.electric.z == 0.0 && p.electric.w == 0.0
    ensures p.magnetic == Vec4(0.0, p.electric.x, 0.0, 0.0)
  {
    var center := Vec3(s.nx as real * 0.5, s.ny as real * 0.5, s.nz as real * 0.25);
    var frequencyMul2Pi := (2.0 * pi) / 12.0;
    var dx := c.x as real - center.x;
    var dy := c.y as real - center.y;
    var dz := c.z as real - center.z;
    var vec := Vec3(dx * 0.7, dy * 0.7, dz);
    var scale := 8.0 * exp((-1.0 / 64.0) * LengthSq(vec));
    var e := (c.z as real) * frequencyMul2Pi;
    var electric := Vec3(scale * sin(e), 0.0, 0.0);
    CrossUnitZ(electric);
    var magnetic := Cross(UnitZ, electric);
    CellPair(Extend(electric, 0.0), Extend(magnetic, 0.0))
  }

  /** `create_test_wave_field`. */
  method CreateTestWaveField(pi: real, sin: real -> real, exp: real -> real) returns (f: EmField)
    ensures ValidEm(f)
    ensures GetSize(f.electric) == WAVE_SIZE && GetSize(f.magnetic) == WAVE_SIZE
    ensures forall c :: InGrid(WAVE_SIZE, c) ==>
      && f.electric.data[Address(WAVE_SIZE, c)] == WaveAt(WAVE_SIZE, pi, sin, exp, c).electric
      && f.magnetic.data[Address(WAVE_SIZE, c)] == WaveAt(WAVE_SIZE, pi, sin, exp, c).magnetic
    ensures forall i :: 0 <= i < |f.electric.data| ==>
      && f.electric.data[i].y == 0.0 && f.electric.data[i].z == 0.0 && f.electric.data[i].w == 0.0
      && f.magnetic.data[i] == Vec4(0.0, f.electric.data[i].x, 0.0, 0.0)
  {
    var size := WAVE_SIZE;
    var pairs := Fill(size, CellPair(Zero4, Zero4), c => WaveAt(size, pi, sin, exp, c));
    var electricData := seq(|pairs|, i requires 0 <= i < |pairs| => pairs[i].electric);
    var magneticData := seq(|pairs|, i requires 0 <= i < |pairs| => pairs[i].magnetic);
    forall i | 0 <= i < |pairs|
      ensures pairs[i].electric.y == 0.0 && pairs[i].electric.z == 0.0 && pairs[i].electric.w == 0.0
      ensures pairs[i].magnetic == Vec4(0.0, pairs[i].electric.x, 0.0, 0.0)
    {
      FillCoversBuffer(size, pairs, c => WaveAt(size, pi, sin, exp, c), i);
    }
    var electric := NewWithData(size, electricData);
    var magnetic := NewWithData(size, magneticData);
    f := EmField(electric.value, magnetic.value);
  }

  // ---------------------------------------------------------------------
  // Static point-charge scenario

  const TEST_SIZE: Size := Size(48, 32, 24)

  function ChargeCenter(s: Size): Vec3
  {
    Scale(Vec3(s.nx as real, s.ny as real, s.nz as real), 0.5)
  }

  function Offset(center: Vec3, c: Cell): Vec3
  {
    Vec3(c.x as real - center.x, c.y as real - center.y, c.z as real - center.z)
  }

  function Divide(a: Vec3, d: real): Vec3
    requires d != 0.0
  {
    Vec3(a.x / d, a.y / d, a.z / d)
  }

  /** Inverse-square field of a point charge at `center`; a cell at zero
      distance gets the zero vector instead of a division by zero. */
  function ChargeAt(center: Vec3, invScale: real, sqrt: real -> real, c: Cell): (v: Vec4)
    requires invScale > 0.0 && IsSqrt(sqrt)
    ensures v.w == 0.0
    ensures v == Zero4 <==> Offset(center, c) == Zero3
    ensures Offset(center, c) != Zero3 ==>
      && Cross(Xyz(v), Offset(center, c)) == Zero3
      && Dot(Xyz(v), Offset(center, c)) > 0.0
      && LengthSq(Xyz(v)) * (invScale * invScale * LengthSq(Offset(center, c)) * LengthSq(Offset(center, c))) == 1.0
  {
    var vec := Offset(center, c);
    var vecSquareLen := LengthSq(vec);
    LengthSqZero(vec);
    var fieldVec := if vecSquareLen <= 0.0 then Zero3 else InverseSquare(vec, invScale, sqrt);
    Extend(fieldVec, 0.0)
  }

  /** `vec / (inv_scale * |vec|^2 * |vec|)` for a non-zero offset: a
      vector along `vec` whose length is 1 / (inv_scale * |vec|^2). */
  function InverseSquare(vec: Vec3, invScale: real, sqrt: real -> real): (r: Vec3)
    requires invScale > 0.0 && IsSqrt(sqrt) && LengthSq(vec) > 0.0
    ensures r != Zero3
    ensures Cross(r, vec) == Zero3
    ensures Dot(r, vec) > 0.0
    ensures LengthSq(r) * (invScale * invScale * LengthSq(vec) * LengthSq(vec)) == 1.0
  {
    var vecSquareLen := LengthSq(vec);
    var d := invScale * vecSquareLen * sqrt(vecSquareLen);
    SqrtPositive(sqrt, vecSquareLen);
    DenominatorPositive(invScale, vecSquareLen, sqrt(vecSquareLen));
    LengthSqZero(vec);
    DivideNonZero(vec, d);
    InverseSquareLaw(vec, invScale, sqrt);
    ParallelToSelf(vec, 1.0 / d);
    ScaleSameDirection(vec, 1.0 / d);
    assert Divide(vec, d) == Scale(vec, 1.0 / d);
    Divide(vec, d)
  }

  lemma DenominatorPositive(a: real, b: real, c: real)
    requires a > 0.0 && b > 0.0 && c > 0.0
    ensures a * b * c > 0.0
  {
    assert a * b > 0.0;
  }

  lemma DivideNonZero(a: Vec3, d: real)
    requires d > 0.0
    ensures Divide(a, d) == Zero3 <==> a == Zero3
  {
    if Divide(a, d) == Zero3 {
      assert a.x == (a.x / d) * d;
      assert a.y == (a.y / d) * d;
      assert a.z == (a.z / d) * d;
    }
  }

  lemma ParallelToSelf(v: Vec3, k: real)
    ensures Cross(Scale(v, k), v) == Zero3
  {
  }

  /** The magnitude law of the charge field: the squared length of
      vec / (s * |vec|^2 * |vec|) times s^2 |vec|^4 is one. */
  lemma InverseSquareLaw(vec: Vec3, invScale: real, sqrt: real -> real)
    requires invScale > 0.0 && IsSqrt(sqrt) && LengthSq(vec) > 0.0
    ensures invScale * LengthSq(vec) * sqrt(LengthSq(vec)) > 0.0
    ensures LengthSq(Divide(vec, invScale * LengthSq(vec) * sqrt(LengthSq(vec))))
      * (invScale * invScale * LengthSq(vec) * LengthSq(vec)) == 1.0
  {
    var l := LengthSq(vec);
    var q := sqrt(l);
    SqrtPositive(sqrt, l);
    var d := invScale * l * q;
    assert d > 0.0 by { assert invScale * l > 0.0; }
    var k := 1.0 / d;
    assert Divide(vec, d) == Scale(vec, k);
    ScaleLengthSq(vec, k);
    assert k * d == 1.0;
    assert q * q == l;
    assert (k * d) * (k * d) == 1.0;
    assert d * d == invScale * invScale * l * l * (q * q);
  }

  /** `create_test_static_charge_field`. */
  method CreateTestStaticChargeField(size: Size, sqrt: real -> real) returns (f: VectorField)
    requires FitsU32(size) && IsSqrt(sqrt)
    ensures Valid(f) && GetSize(f) == size
    ensures forall i :: 0 <= i < |f.data| ==> f.data[i].w == 0.0
    ensures forall c :: InGrid(size, c) ==>
      (f.data[Address(size, c)] == Zero4 <==> Offset(ChargeCenter(size), c) == Zero3)
    ensures forall c :: InGrid(size, c) ==>
      && LengthSq(ChargeCenter(size)) > 0.0
      && f.data[Address(size, c)] == ChargeAt(ChargeCenter(size), 128.0 / LengthSq(ChargeCenter(size)), sqrt, c)
  {
    var center := ChargeCenter(size);
    var centerSquareLen := LengthSq(center);
    var data: seq<Vec4>;
    if centerSquareLen > 0.0 {
      var invScale := 128.0 / centerSquareLen;
      data := Fill(size, Zero4, c => ChargeAt(center, invScale, sqrt, c));
      forall i | 0 <= i < |data|
        ensures data[i].w == 0.0
      {
        FillCoversBuffer(size, data, c => ChargeAt(center, invScale, sqrt, c), i);
      }
    } else {
      // Only an all-zero size puts the center at the origin; that grid has
      // no cells, so the division by zero the source performs here is
      // never used.
      CenterAtOrigin(size);
      data := [];
    }
    var r := NewWithData(size, data);
    f := r.value;
  }

  /** The charge sits at the origin only in a grid with no cells. */
  lemma CenterAtOrigin(s: Size)
    ensures LengthSq(ChargeCenter(s)) <= 0.0 ==> CellCount(s) == 0 && forall c :: !InGrid(s, c)
  {
    var center := ChargeCenter(s);
    if LengthSq(center) <= 0.0 {
      OriginOnly(center);
      Half(s.nx, center.x);
    }
  }

  lemma OriginOnly(v: Vec3)
    requires LengthSq(v) <= 0.0
    ensures v.x == 0.0
  {
    LengthSqZero(v);
  }

  lemma Half(n: nat, h: real)
    requires h == n as real * 0.5 && h == 0.0
    ensures n == 0
  {
  }

  /** `create_test_field`: a point charge at the center of a 48x32x24 grid
      and a zero magnetic field of the same size.  Cell (24, 16, 12) is the
      only cell whose electric vector is zero. */
  method CreateTestField(sqrt: real -> real) returns (f: EmField)
    requires IsSqrt(sqrt)
    ensures ValidEm(f)
    ensures GetSize(f.electric) == TEST_SIZE && GetSize(f.magnetic) == TEST_SIZE
    ensures forall i :: 0 <= i < |f.magnetic.data| ==> f.magnetic.data[i] == Zero4
    ensures forall c :: InGrid(TEST_SIZE, c) ==>
      (f.electric.data[Address(TEST_SIZE, c)] == Zero4 <==> c == Cell(24, 16, 12))
    ensures forall c :: InGrid(TEST_SIZE, c) ==>
      && LengthSq(ChargeCenter(TEST_SIZE)) > 0.0
      && f.electric.data[Address(TEST_SIZE, c)]
         == ChargeAt(ChargeCenter(TEST_SIZE), 128.0 / LengthSq(ChargeCenter(TEST_SIZE)), sqrt, c)
  {
    var electric := CreateTestStaticChargeField(TEST_SIZE, sqrt);
    var magnetic := New(TEST_SIZE);
    forall c | InGrid(TEST_SIZE, c)
      ensures Offset(ChargeCenter(TEST_SIZE), c) == Zero3 <==> c == Cell(24, 16, 12)
    {
    }
    f := EmField(electric, magnetic);
  }
}

=== FILE: grid.dfy ===
/** Grid sizes, cells and the linear addressing every buffer user shares.

    A cell (x, y, z) of a grid of size [nx, ny, nz] lives at the flat index
    `x + y*nx + z*(nx*ny)`; the arrow renderer recovers the cell from the
    index with one division by the layer size `nx*ny` and one by `nx`.
 */
module Grid {

  /** Sizes and indices are `u32` in the source. */
  const U32_LIMIT: nat := 0x1_0000_0000

  datatype Size = Size(nx: nat, ny: nat, nz: nat)

  datatype Cell = Cell(x: nat, y: nat, z: nat)

  function CellCount(s: Size): nat
  {
    s.nx * s.ny * s.nz
  }

  /** The cell count is computed in `u32` and must not overflow. */
  predicate FitsU32(s: Size)
  {
    CellCount(s) < U32_LIMIT
  }

  predicate InGrid(s: Size, c: Cell)
  {
    c.x < s.nx && c.y < s.ny && c.z < s.nz
  }

  /** The flat buffer index of a cell. */
  function Address(s: Size, c: Cell): (a: nat)
    ensures InGrid(s, c) ==> a < CellCount(s)
  {
    AddressBound(s, c);
    c.x + c.y * s.nx + c.z * (s.nx * s.ny)
  }

  lemma AddressBound(s: Size, c: Cell)
    ensures InGrid(s, c) ==> c.x + c.y * s.nx + c.z * (s.nx * s.ny) < CellCount(s)
  {
    if InGrid(s, c) {
      var layer := s.nx * s.ny;
      // x + y*nx < nx + y*nx = (y+1)*nx <= ny*nx
      MulMono(c.y + 1, s.ny, s.nx);
      assert c.x + c.y * s.nx < layer;
      MulMono(c.z + 1, s.nz, layer);
      assert (c.z + 1) * layer == c.z * layer + layer;
      assert layer * s.nz == CellCount(s);
    }
  }

  lemma MulMono(a: nat, b: nat, k: nat)
    requires a <= b
    ensures a * k <= b * k
  {
  }

  /** A non-empty grid has no empty dimension. */
  lemma NonEmptyDims(s: Size)
    requires CellCount(s) > 0
    ensures s.nx > 0 && s.ny > 0 && s.nz > 0
  {
  }

  /** The renderer's inverse of `Address`: z from the layer, then y and x
      from the remainder within the layer. */
  function Decode(s: Size, id: nat): (c: Cell)
    requires s.nx > 0 && s.ny > 0
    ensures c.x < s.nx && c.y < s.ny
  {
    var layer := s.ny * s.nx;
    var z := id / layer;
    FloorDivBelow(id, layer);
    var zid := id - z * layer;
    Cell(zid % s.nx, zid / s.nx, z)
  }

  /** Rounding down a quotient never overshoots: (a / b) * b <= a. */
  lemma FloorDivBelow(a: nat, b: nat)
    requires b > 0
    ensures (a / b) * b <= a
  {
    assert a == (a / b) * b + a % b;
  }

  /** Encoding a decoded index gives the index back, and in-range indices
      decode to in-grid cells. */
  lemma EncodeDecode(s: Size, id: nat)
    requires s.nx > 0 && s.ny > 0
    ensures Address(s, Decode(s, id)) == id
    ensures id < CellCount(s) <==> InGrid(s, Decode(s, id))
  {
    var layer := s.ny * s.nx;
    var z := id / layer;
    var zid := id - z * layer;
    assert 0 <= zid < layer;
    var c := Decode(s, id);
    assert zid == c.y * s.nx + c.x;
    assert c.z * (s.nx * s.ny) == z * layer;
    assert c.y < s.ny by {
      if c.y >= s.ny {
        MulMono(s.ny, c.y, s.nx);
        assert false;
      }
    }
    assert CellCount(s) == layer * s.nz;
    if id < CellCount(s) {
      if z >= s.nz {
        MulMono(s.nz, z, layer);
        assert false;
      }
    } else {
      if z < s.nz {
        MulMono(z + 1, s.nz, layer);
        assert false;
      }
    }
  }

  /** Decoding the address of an in-grid cell gives the cell back. */
  lemma DecodeEncode(s: Size, c: Cell)
    requires InGrid(s, c)
    ensures Decode(s, Address(s, c)) == c
  {
    var layer := s.ny * s.nx;
    var a := Address(s, c);
    var zid := c.x + c.y * s.nx;
    assert zid < layer by { MulMono(c.y + 1, s.ny, s.nx); }
    assert a == c.z * layer + zid;
    DivModUnique(a, layer, c.z, zid);
    DivModUnique(zid, s.nx, c.y, c.x);
  }

  /** Quotient and remainder are determined by any decomposition with a
      remainder in range. */
  lemma DivModUnique(a: nat, b: nat, q: nat, r: nat)
    requires b > 0 && r < b && a == q * b + r
    ensures a / b == q && a % b == r
  {
    var q' := a / b;
    var r' := a % b;
    assert a == q' * b + r';
    if q' < q {
      MulMono(q' + 1, q, b);
      assert false;
    } else if q' > q {
      MulMono(q + 1, q', b);
      assert false;
    }
  }

  /** Distinct in-grid cells have distinct addresses. */
  lemma AddressInjective(s: Size, c: Cell, d: Cell)
    requires InGrid(s, c) && InGrid(s, d)
    requires Address(s, c) == Address(s, d)
    ensures c == d
  {
    DecodeEncode(s, c);
    DecodeEncode(s, d);
  }

  /** Every index below the cell count is the address of some in-grid cell:
      together with `AddressInjective`, `Address` is a bijection between the
      grid and [0, nx*ny*nz). */
  lemma AddressSurjective(s: Size, id: nat)
    requires id < CellCount(s)
    ensures s.nx > 0 && s.ny > 0
    ensures InGrid(s, Decode(s, id)) && Address(s, Decode(s, id)) == id
  {
    NonEmptyDims(s);
    EncodeDecode(s, id);
  }

  /** In a grid whose cell count fits in `u32`, no address of an in-grid
      cell, and none of its partial sums, wraps around. */
  lemma AddressFitsU32(s: Size, c: Cell)
    requires FitsU32(s) && InGrid(s, c)
    ensures c.y * s.nx < U32_LIMIT && s.nx * s.ny < U32_LIMIT
    ensures c.z * (s.nx * s.ny) < U32_LIMIT && Address(s, c) < U32_LIMIT
  {
    var layer := s.nx * s.ny;
    NonEmptyDims(s);
    MulMono(1, s.nz, layer);
    assert layer <= CellCount(s);
    MulMono(c.y, s.ny, s.nx);
    assert c.y * s.nx <= layer;
    MulMono(c.z, s.nz, layer);
    assert c.z * layer <= CellCount(s);
  }
}

=== FILE: keyboard_state.dfy ===
/** The set of keys currently held down.

    The source keeps a map from key code to the last element state seen,
    inserting on a press and removing on a release, so every key in the map
    maps to `Pressed`.
 */
module Keyboard {

  /** The keys the camera reads, and every other key by its code. */
  datatype Key = Left | Right | Up | Down | W | A | S | D | Space | C | Other(code: nat)

  datatype ElementState = Pressed | Released

  datatype KeyboardState = KeyboardState(keys: map<Key, ElementState>)

  /** Only pressed keys are ever stored. */
  ghost predicate Valid(k: KeyboardState)
  {
    forall key :: key in k.keys ==> k.keys[key] == Pressed
  }

  /** `KeyboardState::new`: nothing held. */
  function New(): (k: KeyboardState)
    ensures Valid(k)
    ensures forall key :: !IsPressed(k, key)
  {
    KeyboardState(map[])
  }

  /** A key counts as pressed when it is stored with state `Pressed`; a
      missing key is not pressed. */
  function IsPressed(k: KeyboardState, key: Key): (b: bool)
    ensures key !in k.keys ==> !b
    ensures key in k.keys && k.keys[key] == Released ==> !b
  {
    key in k.keys && k.keys[key] == Pressed
  }

  /** `process_event`: a press records the key, a release forgets it, and
      no other key's state changes. */
  function ProcessEvent(k: KeyboardState, state: ElementState, code: Key): (r: KeyboardState)
    ensures IsPressed(r, code) <==> state == Pressed
    ensures forall key :: key != code ==> IsPressed(r, key) == IsPressed(k, key)
    ensures Valid(k) ==> Valid(r)
  {
    match state
    case Pressed => KeyboardState(k.keys[code := state])
    case Released => KeyboardState(k.keys - {code})
  }

  /** In a valid state, being stored and being pressed are the same. */
  lemma PressedIffStored(k: KeyboardState, key: Key)
    requires Valid(k)
    ensures IsPressed(k, key) <==> key in k.keys
  {
  }

  /** Repeating an event changes nothing: auto-repeated presses and
      duplicate releases are harmless. */
  lemma ProcessEventIdempotent(k: KeyboardState, state: ElementState, code: Key)
    ensures ProcessEvent(ProcessEvent(k, state, code), state, code) == ProcessEvent(k, state, code)
  {
  }

  datatype Event = Event(state: ElementState, code: Key)

  /** The state after a sequence of events, applied in order. */
  function Replay(k: KeyboardState, events: seq<Event>): KeyboardState
    decreases |events|
  {
    if |events| == 0 then k
    else
      var last := events[|events| - 1];
      ProcessEvent(Replay(k, events[..|events| - 1]), last.state, last.code)
  }

  /** The last event for a key decides whether it is pressed; a key with no
      event keeps its state from before. */
  lemma {:induction false} ReplayLastEventWins(k: KeyboardState, events: seq<Event>, key: Key)
    ensures IsPressed(Replay(k, events), key) <==>
      (if exists i :: 0 <= i < |events| && events[i].code == key
       then events[LastIndexOf(events, key)].state == Pressed
       else IsPressed(k, key))
    decreases |events|
  {
    if |events| > 0 {
      var prefix := events[..|events| - 1];
      ReplayLastEventWins(k, prefix, key);
      var last := events[|events| - 1];
      if last.code != key {
        if exists i :: 0 <= i < |events| && events[i].code == key {
          var i :| 0 <= i < |events| && events[i].code == key;
          assert prefix[i].code == key;
          assert LastIndexOf(events, key) == LastIndexOf(prefix, key);
        }
      }
    }
  }

  /** The index of the last event for `key`, or -1 when there is none. */
  function LastIndexOf(events: seq<Event>, key: Key): (i: int)
    ensures -1 <= i < |events|
    ensures i >= 0 ==> events[i].code == key
    ensures forall j :: i < j < |events| ==> events[j].code != key
    decreases |events|
  {
    if |events| == 0 then -1
    else if events[|events| - 1].code == key then |events| - 1
    else LastIndexOf(events[..|events| - 1], key)
  }

  /** Any sequence of events from the initial state leaves only pressed
      keys stored. */
  lemma {:induction false} ReplayValid(events: seq<Event>)
    ensures Valid(Replay(New(), events))
    decreases |events|
  {
    if |events| > 0 {
      ReplayValid(events[..|events| - 1]);
    }
  }
}

=== FILE: vec_math.dfy ===
/** Real-valued 3- and 4-component vectors.

    The source stores every field sample as four `f32`s, the fourth being
    padding for the shader storage layout.  Floats are modelled as reals, so
    rounding is not part of this model.
 */
module VecMath {

  datatype Vec3 = Vec3(x: real, y: real, z: real)

  /** A stored field entry: a 3-vector padded with a fourth component `w`. */
  datatype Vec4 = Vec4(x: real, y: real, z: real, w: real)

  const Zero3: Vec3 := Vec3(0.0, 0.0, 0.0)
  const Zero4: Vec4 := Vec4(0.0, 0.0, 0.0, 0.0)
  const UnitZ: Vec3 := Vec3(0.0, 0.0, 1.0)

  function Add(a: Vec3, b: Vec3): Vec3
  {
    Vec3(a.x + b.x, a.y + b.y, a.z + b.z)
  }

  function Sub(a: Vec3, b: Vec3): Vec3
  {
    Vec3(a.x - b.x, a.y - b.y, a.z - b.z)
  }

  function Scale(a: Vec3, k: real): Vec3
  {
    Vec3(a.x * k, a.y * k, a.z * k)
  }

  /** Squared length (`magnitude2` in the source's vector library). */
  function LengthSq(a: Vec3): real
  {
    a.x * a.x + a.y * a.y + a.z * a.z
  }

  function Cross(a: Vec3, b: Vec3): Vec3
  {
    Vec3(a.y * b.z - a.z * b.y, a.z * b.x - a.x * b.z, a.x * b.y - a.y * b.x)
  }

  /** `extend(w)`: pad a 3-vector with a fourth component. */
  function Extend(a: Vec3, w: real): Vec4
  {
    Vec4(a.x, a.y, a.z, w)
  }

  /** The `.xyz` swizzle. */
  function Xyz(v: Vec4): Vec3
  {
    Vec3(v.x, v.y, v.z)
  }

  /** A squared length is never negative, and is zero only for the zero
      vector. */
  lemma LengthSqZero(a: Vec3)
    ensures LengthSq(a) >= 0.0
    ensures LengthSq(a) == 0.0 <==> a == Zero3
  {
    SquareNonneg(a.x);
    SquareNonneg(a.y);
    SquareNonneg(a.z);
    if LengthSq(a) == 0.0 {
      SumSquaresZero(a.x, a.y, a.z);
    }
  }

  lemma SumSquaresZero(p: real, q: real, r: real)
    requires p * p + q * q + r * r == 0.0
    ensures p == 0.0 && q == 0.0 && r == 0.0
  {
    SquareNonneg(p);
    SquareNonneg(q);
    SquareNonneg(r);
    assert p * p == 0.0 && q * q == 0.0 && r * r == 0.0;
    SquareZero(p);
    SquareZero(q);
    SquareZero(r);
  }

  lemma SquareNonneg(r: real)
    ensures r * r >= 0.0
  {
  }

  lemma MulPos(a: real, b: real)
    requires a > 0.0 && b > 0.0
    ensures a * b > 0.0
  {
  }

  lemma MulNeg(a: real, b: real)
    requires a < 0.0 && b < 0.0
    ensures a * b > 0.0
  {
  }

  /** A product of two numbers of the same sign is zero only when they are
      zero.  `SquareZero` passes the square as such a product because the
      solver does not settle `r * r == 0.0` directly in every configuration. */
  lemma ProductZero(r: real, s: real)
    requires r * s == 0.0 && (r > 0.0 <==> s > 0.0) && (r < 0.0 <==> s < 0.0)
    ensures r == 0.0
  {
    if r > 0.0 {
      MulPos(r, s);
      assert false;
    } else if r < 0.0 {
      MulNeg(r, s);
      assert false;
    }
  }

  /** A number whose square is zero is zero. */
  lemma SquareZero(r: real)
    requires r * r == 0.0
    ensures r == 0.0
  {
    ProductZero(r, r);
  }

  /** Dot product. */
  function Dot(a: Vec3, b: Vec3): real
  {
    a.x * b.x + a.y * b.y + a.z * b.z
  }

  /** `sqrt` returns the non-negative square root of every non-negative
      number.  Square roots are parameters of the model, constrained by
      this predicate where a contract needs it. */
  ghost predicate IsSqrt(sqrt: real -> real)
  {
    forall r :: r >= 0.0 ==> sqrt(r) >= 0.0 && sqrt(r) * sqrt(r) == r
  }

  lemma SqrtPositive(sqrt: real -> real, r: real)
    requires IsSqrt(sqrt) && r > 0.0
    ensures sqrt(r) > 0.0
  {
    var q := sqrt(r);
    if q == 0.0 {
      assert false;
    }
  }

  lemma SqrtZero(sqrt: real -> real)
    requires IsSqrt(sqrt)
    ensures sqrt(0.0) == 0.0
  {
    var q := sqrt(0.0);
    SquareZero(q);
  }

  /** A vector scaled by a positive factor points the same way as the
      vector: their dot product is positive. */
  lemma ScaleSameDirection(v: Vec3, k: real)
    requires k > 0.0 && v != Zero3
    ensures Dot(Scale(v, k), v) > 0.0
  {
    assert Dot(Scale(v, k), v) == k * LengthSq(v);
    LengthSqZero(v);
    MulPos(k, LengthSq(v));
  }

  /** Scaling a vector by k scales its squared length by k * k. */
  lemma ScaleLengthSq(v: Vec3, k: real)
    ensures LengthSq(Scale(v, k)) == k * k * LengthSq(v)
  {
  }

  /** Crossing the z axis with a vector along x turns it onto the y axis. */
  lemma CrossUnitZ(e: Vec3)
    requires e.y == 0.0 && e.z == 0.0
    ensures Cross(UnitZ, e) == Vec3(0.0, e.x, 0.0)
  {
  }
}

=== FILE: vector_field.dfy ===
/** A vector field: a grid size fixed at construction and a flat buffer of
    one padded vector per cell, plus the electric/magnetic pair built from
    two of them. */
module Fields {
  import opened VecMath
  import opened Grid

  /** The fatal assertions of the source, as values. */
  datatype Error =
    | LengthMismatch   // buffer length differs from nx*ny*nz at construction
    | SizeMismatch     // electric and magnetic fields have different sizes

  datatype Result<T> = Success(value: T) | Failure(error: Error)

  datatype VectorField = VectorField(size: Size, data: seq<Vec4>)

  /** What every constructed field satisfies: the buffer holds exactly one
      entry per cell, and the cell count fits in `u32`. */
  predicate Valid(f: VectorField)
  {
    FitsU32(f.size) && |f.data| == CellCount(f.size)
  }

  /** `new_with_data`: the buffer is taken verbatim, provided its length is
      the cell count; otherwise construction fails. */
  function NewWithData(size: Size, data: seq<Vec4>): (r: Result<VectorField>)
    requires FitsU32(size)
    ensures r.Success? <==> |data| == CellCount(size)
    ensures r.Failure? ==> r.error == LengthMismatch
    ensures r.Success? ==> Valid(r.value) && r.value.data == data
  {
    if |data| != CellCount(size) then Failure(LengthMismatch)
    else Success(VectorField(size, data))
  }

  /** `new`: a zero-filled buffer of nx*ny*nz entries, passed through
      `new_with_data` (whose length check it always passes). */
  function New(size: Size): (f: VectorField)
    requires FitsU32(size)
    ensures Valid(f) && f.size == size
    ensures forall i :: 0 <= i < |f.data| ==> f.data[i] == Zero4
  {
    var r := NewWithData(size, seq(CellCount(size), _ => Zero4));
    r.value
  }

  /** The reported size accounts for every stored entry of a valid field. */
  function GetSize(f: VectorField): (s: Size)
    ensures Valid(f) ==> CellCount(s) == |f.data|
  {
    f.size
  }

  /** Writing through `get_buffer_mut`: the buffer is replaced by one of the
      same length (a GPU buffer cannot be resized); the size is untouched. */
  function WithBuffer(f: VectorField, buffer: seq<Vec4>): (r: VectorField)
    requires |buffer| == |f.data|
    ensures GetSize(r) == GetSize(f) && r.data == buffer
    ensures Valid(f) ==> Valid(r)
  {
    f.(data := buffer)
  }

  /** `get_size` reports the size given at construction, for both
      constructors. */
  lemma GetSizeAfterNew(size: Size, data: seq<Vec4>)
    requires FitsU32(size)
    ensures NewWithData(size, data).Success? ==> GetSize(NewWithData(size, data).value) == size
    ensures GetSize(New(size)) == size
  {
  }

  /** The electric/magnetic pair the updater and the simulator work on. */
  datatype EmField = EmField(electric: VectorField, magnetic: VectorField)

  predicate ValidEm(f: EmField)
  {
    Valid(f.electric) && Valid(f.magnetic)
  }
}

=== FILE: vector_field_visualizer.dfy ===
/** The arrow renderer's vertex shader.

    A field is drawn as a list of line segments, one per cell: the draw
    call issues two vertices per cell, vertex `id` belongs to cell `id / 2`,
    its low bit says whether it is the arrow's base (0) or tip (1), and the
    cell's grid position is decoded from the cell index.  The base sits at
    the cell center; the tip is offset by the stored vector after a length
    clamp, which is a parameter here (it is floating-point `length`, `min`
    and `max`).
 */
module ArrowRenderer {
  import opened VecMath
  import opened Grid

  /** The draw call's vertex count, computed in `u32`. */
  function VertexCount(s: Size): (n: nat)
    requires 2 * CellCount(s) < U32_LIMIT
    ensures n % 2 == 0 && n / 2 == CellCount(s) && n < U32_LIMIT
  {
    CellCount(s) * 2
  }

  /** `uint(gl_VertexID) / 2`. */
  function VertexCellIndex(id: nat): nat
  {
    id / 2
  }

  /** `float(gl_VertexID & 1)`: 0 at the base, 1 at the tip. */
  function TipFactor(id: nat): (t: real)
    ensures t == 0.0 || t == 1.0
  {
    (id % 2) as real
  }

  /** The grid cell of a vertex, decoded as the shader does. */
  function VertexCell(s: Size, id: nat): Cell
    requires s.nx > 0 && s.ny > 0
  {
    Decode(s, VertexCellIndex(id))
  }

  /** The cell's center: its integer coordinates plus one half. */
  function CellCenter(c: Cell): Vec3
  {
    Vec3(c.x as real + 0.5, c.y as real + 0.5, c.z as real + 0.5)
  }

  /** The position the shader emits (before the view matrix) for vertex
      `id` of a field stored in `data`. */
  function VertexPosition(s: Size, data: seq<Vec4>, clamp: Vec3 -> Vec3, id: nat): (p: Vec3)
    requires |data| == CellCount(s) && VertexCellIndex(id) < |data|
    ensures s.nx > 0 && s.ny > 0 && InGrid(s, VertexCell(s, id))
    ensures id % 2 == 0 ==> p == CellCenter(VertexCell(s, id))
  {
    AddressSurjective(s, VertexCellIndex(id));
    var c := VertexCell(s, id);
    Add(CellCenter(c), Scale(clamp(Xyz(data[VertexCellIndex(id)])), TipFactor(id)))
  }

  /** Every vertex of the draw call reads an entry inside the buffer and
      lands on an in-grid cell. */
  lemma VerticesInBounds(s: Size, id: nat)
    requires 2 * CellCount(s) < U32_LIMIT && id < VertexCount(s)
    ensures VertexCellIndex(id) < CellCount(s)
    ensures s.nx > 0 && s.ny > 0 && InGrid(s, VertexCell(s, id))
    ensures Address(s, VertexCell(s, id)) == VertexCellIndex(id)
  {
    AddressSurjective(s, VertexCellIndex(id));
  }

  /** Each cell owns exactly the two vertices 2a and 2a + 1, where a is its
      address: the first is the arrow's base, the second its tip. */
  lemma ArrowOfCell(s: Size, c: Cell)
    requires 2 * CellCount(s) < U32_LIMIT && InGrid(s, c)
    ensures 2 * Address(s, c) + 1 < VertexCount(s)
    ensures s.nx > 0 && s.ny > 0
    ensures VertexCell(s, 2 * Address(s, c)) == c && TipFactor(2 * Address(s, c)) == 0.0
    ensures VertexCell(s, 2 * Address(s, c) + 1) == c && TipFactor(2 * Address(s, c) + 1) == 1.0
    ensures forall id :: 0 <= id < VertexCount(s) && VertexCell(s, id) == c ==>
      id == 2 * Address(s, c) || id == 2 * Address(s, c) + 1
  {
    NonEmptyDims(s);
    var a := Address(s, c);
    DecodeEncode(s, c);
    assert VertexCellIndex(2 * a) == a && VertexCellIndex(2 * a + 1) == a;
    forall id | 0 <= id < VertexCount(s) && VertexCell(s, id) == c
      ensures id == 2 * a || id == 2 * a + 1
    {
      VerticesInBounds(s, id);
    }
  }

  /** The base vertex sits at the cell center whatever the field holds; the
      tip is the center moved by the clamped vector. */
  lemma BaseAtCenter(s: Size, data: seq<Vec4>, clamp: Vec3 -> Vec3, id: nat)
    requires |data| == CellCount(s) && VertexCellIndex(id) < |data|
    ensures s.nx > 0 && s.ny > 0
    ensures id % 2 == 0 ==> VertexPosition(s, data, clamp, id) == CellCenter(VertexCell(s, id))
    ensures id % 2 == 1 ==>
      VertexPosition(s, data, clamp, id) == Add(CellCenter(VertexCell(s, id)), clamp(Xyz(data[VertexCellIndex(id)])))
  {
    AddressSurjective(s, VertexCellIndex(id));
  }

  /** The center of an in-grid cell lies strictly inside the box
      [0, nx] x [0, ny] x [0, nz] that the border outlines. */
  lemma CenterInsideBox(s: Size, c: Cell)
    requires InGrid(s, c)
    ensures 0.0 < CellCenter(c).x < s.nx as real
    ensures 0.0 < CellCenter(c).y < s.ny as real
    ensures 0.0 < CellCenter(c).z < s.nz as real
  {
  }
}
